=== FILE: README.md ===
# python-uri in Dafny

A model of `uri.py`, a small permissive URI splitter and serialiser with a
URL view built on top of it, together with proofs about it.

- `Uri` splits a string into scheme, authority, path, query and fragment,
  and `str()` puts the five back together. The split is a looser,
  colon-first version of the component split in Appendix B of RFC 2396.
  - The scheme is everything before the first ':'. Its characters are not
    checked against section 3.1 of RFC 2396.
  - An authority (section 3.2 of RFC 2396) follows "//" and runs to the
    first '/', '?' or '#'.
  - The path runs to the first '?' or '#'. The query runs from a '?' to the
    next '#'. The fragment (section 4.1 of RFC 2396) is the rest.
- `Url` wraps a `Uri`.
  - It reads the authority as `hostname[:port]`.
  - It rebuilds the authority whenever the hostname or the port is set.
  - The protocol, hash and query are the wrapped scheme, fragment and query.
  - `get_query_parameters` splits the query on '&' and '='.

Modules:
- `Wrappers`: `Option` and `Result`.
- `Text`: the Python string operations the code relies on, on `seq<char>`.
  These are `re.search` over a character class, `str.split`, `int()` and
  `str()` of an integer.
- `Uris`: the component split as functions (`SplitScheme`,
  `SplitOffAuthority`, `ScanTail`, `Scan`, `Parse`), `str()` as `Format`, and
  `class Uri`. The class's `_parse` advances a cursor and assigns the fields
  in place, and is proved equal to `Parse`.
- `Urls`: `SplitHostPort`, `RenderAuthority`, the query-parameter fold, and
  `class Url`, whose setters update the object and its wrapped `Uri` in
  place.

The code's quirks are modelled as written.
- Without any ':', `find` returns -1. The scheme then becomes `source[0:-1]`
  (all but the last character) and the rest of the parse starts over at
  index 0. This is not treated as an error, because the code does not raise
  (`SplitScheme`, `ParseWithoutColon`).
- When '#' comes before any '?', the fragment keeps its '#'. So `str()`
  then adds a second '#' (`FragmentKeepsHash`,
  `FormatParseNotIdempotent`).
- `str()` always writes a ':' and drops a "//", '?' or '#' that has nothing
  after it. So `str(Uri(s)) == s` holds exactly when `s` has a ':' and the
  delimiters that `s` spells out are the ones `str()` writes back
  (`FormatParse`).
- A path that starts with "//" after an empty authority (as in "a:////") is
  printed without the empty "//". Re-parsing then reads the path's "//" as
  the authority's (`SlashPathReadAsAuthority`). The other exception is a
  non-empty fragment without a non-empty query. That fragment is reached
  through '#' before any '?', or through "?#", whose empty query `str()`
  drops. Apart from these two cases, a parse survives printing and
  re-parsing field by field (`ParsedWellFormed`).
- When a port is set and is truthy (not None, not 0), rebuilding the
  authority drops the hostname. A port of 0 reads back as no port
  (`SplitRenderedAuthority`).
- `int()` raising inside `Url.__init__` is a `Failure`. By that point the
  hostname has already been assigned (`Url.ParseAuthority`, `NewUrl`).

## Model

Helper lemmas have no rows of their own. Among them are the proof steps of `Uri`'s `_parse` methods (`SchemeStep`, `NoAuthority`, `AuthorityUpTo`, `AuthorityToEnd` and the four `ScanTail*` branch lemmas) and `ParseStages`.

| member | source | states |
|---|---|---|
| Text.FirstOf | uri.py:45 | The search result is the index of a character from the set with none of the set before it. It is None exactly when no character of the set occurs. This models `re.search` over a character class, matching one character, also used at lines 33 and 53. |
| Text.SplitAtFirst | uri.py:33-38 | The part before the first delimiter contains no delimiter. The rest is empty or starts with a delimiter. The two lengths add up to the input's length. |
| Text.SplitAtFirstJoin | uri.py:33-38 | The part before the first delimiter followed by the rest is the input. |
| Text.Split | uri.py:157-159 | `str.split` gives at least one piece, and no piece contains the separator. |
| Text.JoinSplit | uri.py:157 | Joining the pieces of a split with the separator gives the text back. |
| Text.SplitJoin | uri.py:157 | Splitting a join of separator-free pieces gives the pieces back. |
| Text.SplitInTwo | uri.py:159-160 | A split gives exactly the two items [a, b] iff the text is a, separator, b, with no separator in a or b. |
| Text.ParseInt | uri.py:95 | `int()` succeeds iff the text is an optional sign followed by one or more ASCII digits. |
| Text.NatToString | uri.py:102 | `str()` of a natural number is decimal digits only, with no leading zero. |
| Text.IntToString | uri.py:102 | `str()` of an integer: a '-' for a negative one, then `NatToString`'s digits. `ParseIntToString` states that `int()` reads it back. |
| Text.ParseIntToString | uri.py:102 | `int(str(i)) == i` for every integer i. |
| Uris.FormatLayout | uri.py:65-74 | `str()` writes the scheme, ':', and then the components, with "//", '?' and '#' present exactly when the component after them is non-empty. |
| Uris.SplitScheme | uri.py:26-28 | With a ':' in the input, the scheme contains no ':'. Without one, the scheme is the input minus its last character, and the rest is the whole input. |
| Uris.SplitSchemeJoin | uri.py:26-28 | With a ':' in the input, the input is scheme + ':' + rest. |
| Uris.SplitOffAuthority | uri.py:31-39 | An authority is taken iff the text starts with "//". It contains no '/', '?' or '#', and what follows it is empty or starts with one of them. Otherwise the authority is empty and the text is passed on unchanged. |
| Uris.SplitOffAuthorityJoin | uri.py:31-39 | The optional "//", the authority and the rest make up the text. |
| Uris.ScanTail | uri.py:41-62 | The path contains no '?' or '#', and the query contains no '#'. When '#' comes first, the query is empty and the fragment is empty or starts with '#'. After '?' with no '#', the fragment is empty. |
| Uris.TailTextOfScan | uri.py:41-62 | Path, query and fragment, with the delimiters consumed, lay out the text after the authority exactly. |
| Uris.Scan | uri.py:26-62 | This is the whole split. The scheme has no ':' (or is the input minus its last character when there is no ':'). No component contains the delimiter that ends it. An authority step is taken exactly when the text after the ':' starts with "//", and an authority is present only then. A path after "//" starts with '/'. |
| Uris.ScanLayout | uri.py:26-62 | With a ':' in s, the components and the delimiters consumed lay out s exactly. Without one, they lay out ":" + s. |
| Uris.Format | uri.py:65-74 | `str()` of a `Uri`. It has no contract of its own: `FormatLayout`, `FormatWritesColon`, `ParseFormat` and `FormatParse` state what it writes. |
| Uris.Parse | uri.py:15-62 | The components `_parse` assigns. Its properties are those of `Scan`, `ScanLayout`, `ParseFormat` and `ParseWithoutColon`. |
| Uris.Uri.ToString | uri.py:65-74 | `str(uri)` is `Format` of the five fields. |
| Uris.Uri.constructor | uri.py:8-13 | `Uri(source)` has the fields `Parse(source)`. |
| Uris.Uri.ParseSource | uri.py:15-28 | On blank fields, `_parse` leaves all five fields equal to `Parse(source)`. |
| Uris.Uri.ParseAuthority | uri.py:30-39 | From the cursor after the ':', the authority is `SplitOffAuthority`'s. Path, query and fragment are `ScanTail` of what follows it. When the authority runs to the end, they stay blank. |
| Uris.Uri.ParseTail | uri.py:41-62 | From the cursor on, path, query and fragment are `ScanTail` of the remaining source. |
| Uris.FormatParse | uri.py:65-74 | For every s, `str(Uri(s)) == s` iff s has a ':' and the delimiters the parse consumed are the ones `str()` writes. |
| Uris.FormatParseWithColon | uri.py:65-74 | With a ':' in s, `str(Uri(s)) == s` iff the consumed delimiters are the ones `str()` writes. |
| Uris.FormatWritesColon | uri.py:66 | `str()` always writes a ':' right after the scheme. |
| Uris.ParsedWellFormed | uri.py:15-74 | Every parse whose fragment comes with a non-empty query, and whose path does not start with "//" after an empty authority, is well formed. Its fields survive printing and re-parsing, and printing after parsing is idempotent. |
| Uris.SlashPathReadAsAuthority | uri.py:31-39 | "a:////" parses to an empty authority and the path "//". `str()` writes "a://", which re-parses to empty components and prints "a:". |
| Uris.ParseFormat | uri.py:65-74 | For well-formed components c, parsing `str()` of c gives back c, and consumes exactly the delimiters `str()` wrote. |
| Uris.SplitSchemeOf | uri.py:26-28 | A scheme without ':' is read back from scheme + ':' + rest. |
| Uris.SplitOffAuthorityOfText | uri.py:31-39 | An authority written by `str()` in front of a path is read back. |
| Uris.ScanTailOf | uri.py:41-62 | Path, query and fragment written by `str()` are read back. |
| Uris.ParseWithoutColon | uri.py:26-28 | Without ':', the scheme is s minus its last character, and the other components are those of parsing ":" + s. |
| Uris.FragmentKeepsHash | uri.py:48-50 | With an empty query and a non-empty fragment, parsing `str()` gives the fragment back with an extra leading '#'. |
| Uris.ScanTailHashFirst | uri.py:48-50 | A path followed by '#' and a fragment scans to that path and '#' + fragment. |
| Uris.FormatParseNotIdempotent | uri.py:48-50 | In that case each further parse-and-print round makes the text one character longer. |
| Uris.HttpUri | tests.py:10-17 | "http://www.google.com/mail?locale=en_US#tab1" parses to the tested five components. |
| Uris.ImaginaryUri | tests.py:19-23 | "urn:example:animal:ferret:nose" has scheme "urn" and that path, and `str()` gives it back, as tests.py:43-46 also checks. |
| Uris.BitlyUri | tests.py:34-41 | "http://bit.ly/f3fvFA" parses to scheme, authority and path, with an empty query and fragment. |
| Urls.SplitHostPort | uri.py:90-97 | Without ':', the hostname is the whole authority and there is no port. With ':', the hostname is the text before the first ':' and the port is the `int()` of the text after it. The split fails iff there is a ':' and that text is not an integer. |
| Urls.HostBeforeColon | uri.py:92-94 | The hostname assigned before `int()` runs is the prefix up to the first ':'. |
| Urls.HasPort | uri.py:101 | The truthiness test on the port: None and 0 are false. |
| Urls.RenderAuthority | uri.py:99-103 | The authority `_generate_authority` writes. `SplitRenderedAuthority` and `HostnameSurvives` state what reading it back gives. |
| Urls.SplitRenderedAuthority | uri.py:99-103 | For a hostname without ':', re-reading a rebuilt authority gives the hostname and no port when the port is falsy. It gives an empty hostname and the port when the port is truthy. |
| Urls.HostnameSurvives | uri.py:99-103 | For a hostname without ':', the hostname survives rebuilding and re-reading iff no truthy port is set or the hostname is empty. |
| Urls.PairOf | uri.py:159-160 | A piece that splits on '=' into exactly two items. `PairOfShape` states which pieces these are. |
| Urls.CollectPairs | uri.py:158-161 | The loop's fold over the pieces. `CollectKeys`, `CollectLastWins` and `CollectTwoPairs` state its result. |
| Urls.QueryParameters | uri.py:150-162 | `get_query_parameters` on the query text. `QueryKeys` and `EmptyQueryShortcut` state its result. |
| Urls.PairOfShape | uri.py:159-161 | A piece is a key/value pair iff it is key '=' value with no other '='. |
| Urls.CollectKeys | uri.py:158-161 | A key is in the result iff some piece is a pair with that key. |
| Urls.CollectLastWins | uri.py:158-161 | A key maps to the value of the last piece that is a pair with that key. |
| Urls.CollectTwoPairs | uri.py:158-161 | Two pairs give both keys, with the second pair written last. |
| Urls.EmptyQueryShortcut | uri.py:154-155 | The early return for an empty query agrees with the loop: "" splits into one piece that is no pair. |
| Urls.QueryKeys | uri.py:150-162 | A key is in `get_query_parameters` iff one '&'-piece of the query is key '=' value with no other '='. |
| Urls.Url.constructor | uri.py:79-82 | A fresh `Uri` of the source, a blank hostname and no port. |
| Urls.Url.ParseAuthority | uri.py:85-97 | Hostname and port are those of `SplitHostPort`. On a failing `int()`, the error is returned with the hostname already assigned and the port unchanged. |
| Urls.Url.Hostname | uri.py:109-110 | The `hostname` getter. `SetHostname` and `SetPort` state what it returns after each setter. |
| Urls.Url.Port | uri.py:118-119 | The `port` getter. `SetPort` and `SetHostname` state what it returns after each setter. |
| Urls.Url.Protocol | uri.py:123-124 | The `protocol` getter, the wrapped scheme. `SetProtocol` states what it returns after the setter. |
| Urls.Url.Hash | uri.py:131-132 | The `hash` getter, the wrapped fragment. `SetHash` states what it returns after the setter. |
| Urls.Url.Query | uri.py:139-140 | The `query` getter, the wrapped query. `SetQuery` states what it returns after the setter. |
| Urls.Url.ToString | uri.py:147-148 | `str(url)` is `str()` of the wrapped `Uri`. `NewUrl` states what it gives for a parsed source. |
| Urls.Url.GenerateAuthority | uri.py:99-103 | The wrapped authority becomes `RenderAuthority(hostname, port)`, and no other wrapped field changes. |
| Urls.Url.SetHostname | uri.py:105-112 | The getter returns the new hostname, the port is unchanged, and only the wrapped authority is rebuilt. |
| Urls.Url.SetPort | uri.py:114-121 | The getter returns the new port, the hostname is unchanged, and only the wrapped authority is rebuilt. |
| Urls.Url.SetProtocol | uri.py:123-129 | The protocol getter returns the value, and only the wrapped scheme changes. |
| Urls.Url.SetHash | uri.py:131-137 | The hash getter returns the value, and only the wrapped fragment changes. |
| Urls.Url.SetQuery | uri.py:139-145 | The query getter returns the value, and only the wrapped query changes. |
| Urls.Url.GetQueryParameters | uri.py:150-162 | The loop's map is `QueryParameters` of the query. |
| Urls.NewUrl | uri.py:79-83 | `Url(source)` succeeds iff its authority splits. Its fields are then `Parse(source)` and the split's hostname and port. `str(url)` (uri.py:147-148) is `str()` of the parse, and equals the source iff the source has a ':' and the consumed delimiters are the ones written back. |
| Urls.GoogleUrl | tests.py:53-65 | "http://www.google.com:80/mail?locale=en_US#tab1" gives protocol "http", hostname "www.google.com", port 80, query "locale=en_US" and hash "tab1", and `str()` gives it back. |
| Urls.GooglePort | tests.py:57-58 | "www.google.com:80" splits into "www.google.com" and 80. |
| Urls.TwoQueryParameters | tests.py:74-81 | "locale=en_US&support=true" gives both keys with their values. |
| Urls.NoQueryParameters | tests.py:83-87 | "missingValue" gives an empty map. |

## Left out

- Text.ParseInt: narrower than Python's `int()`. It does not accept surrounding whitespace, underscores between digits, or non-ASCII digits.
- `re` is replaced by a first-occurrence search over a set of characters. No regular-expression machinery is modelled.
- Python `property(...)` descriptors are not modelled. The getters are plain functions and the setters are methods.
- Setters accept values of any Python type. The model types the hostname as a string and the port as an optional integer. It does not model a port that is a string, a bool or another object, or `str()` of such a port.
- Uris.Uri.ParseSource: requires blank fields. `_parse` runs only from `Uri.__init__`, just after the fields are blanked.
- `_parse` is split into three methods (`ParseSource`, `ParseAuthority`, `ParseTail`) that hand on the cursor `pos`.
- Urls.Url.ParseAuthority: requires a blank hostname and no port. `_parse` runs only from `Url.__init__`, just after those are set.
- When `Url.__init__` raises, the half-built object is discarded. `NewUrl` returns the error instead of an object.
- The `Uri` object wrapped by a `Url` is owned by that `Url`. Sharing it with other code is not modelled.
- `get_query_parameters` splits the query twice and never uses the first result, `pairs`. The model splits it once.
- The insertion order of the dict that `get_query_parameters` returns (uri.py:153-161) is not modelled. `map<string, string>` is unordered.

=== FILE: text.dfy ===
/**
 * The few string built-ins of Python that uri.py relies on, over `string`
 * (a `seq<char>`): first-occurrence search (`str.find` and `re.search` over a
 * character class, matching one character), `str.split` with a one-character separator, `int()`
 * on a port number and `str()` of an integer.
 */
module Text {
  import opened Wrappers

  /** No character of `s` lies in `delims`. */
  predicate NoneOf(s: string, delims: set<char>)
  {
    forall i :: 0 <= i < |s| ==> s[i] !in delims
  }

  /**
   * The index of the first character of `s` that lies in `delims`, or None.
   * This is `re.search("[...]", s).start(0)` for a character class, and
   * `s.find(c)` for a single character (with None for Python's -1).
   */
  function FirstOf(s: string, delims: set<char>): (r: Option<nat>)
    ensures r.Some? ==> r.value < |s| && s[r.value] in delims && NoneOf(s[..r.value], delims)
    ensures r.None? ==> NoneOf(s, delims)
  {
    if s == [] then None
    else if s[0] in delims then Some(0)
    else
      match FirstOf(s[1..], delims)
      case None => None
      case Some(i) => Some(i + 1)
  }

  /** The search result is determined by the first delimiter's position. */
  lemma FirstOfAt(s: string, delims: set<char>, i: nat)
    requires i < |s| && s[i] in delims && NoneOf(s[..i], delims)
    ensures FirstOf(s, delims) == Some(i)
  {
  }

  /**
   * `s` cut just before its first character in `delims`: the text before it,
   * and the rest starting with that character ("" when there is none).
   */
  function SplitAtFirst(s: string, delims: set<char>): (r: (string, string))
    ensures NoneOf(r.0, delims)
    ensures r.1 == [] || r.1[0] in delims
    ensures |r.0| + |r.1| == |s|
  {
    match FirstOf(s, delims)
    case None => (s, [])
    case Some(i) => (s[..i], s[i..])
  }

  /** The two parts of `SplitAtFirst` put back together give `s`. */
  lemma SplitAtFirstJoin(s: string, delims: set<char>)
    ensures s == SplitAtFirst(s, delims).0 + SplitAtFirst(s, delims).1
  {
    match FirstOf(s, delims)
    case None =>
    case Some(i) =>
      assert s == s[..i] + s[i..];
  }

  /** Cutting `a + b` at its first delimiter gives `a` and `b` back when the delimiter is at the head of `b`. */
  lemma SplitAtFirstOf(a: string, b: string, delims: set<char>)
    requires NoneOf(a, delims) && (b == [] || b[0] in delims)
    ensures SplitAtFirst(a + b, delims) == (a, b)
  {
    if b == [] {
      assert a + b == a;
    } else {
      FirstOfAfterPrefix(a, b, delims);
      assert (a + b)[..|a|] == a && (a + b)[|a|..] == b;
    }
  }

  lemma NoneOfSuffix(s: string, k: nat, delims: set<char>)
    requires k <= |s| && NoneOf(s, delims)
    ensures NoneOf(s[k..], delims) && FirstOf(s[k..], delims).None?
  {
    assert forall i :: 0 <= i < |s| - k ==> s[k..][i] == s[k + i];
  }

  /** The search over `a + b` finds the head of `b` when `a` has no delimiter. */
  lemma FirstOfAfterPrefix(a: string, b: string, delims: set<char>)
    requires NoneOf(a, delims) && b != [] && b[0] in delims
    ensures FirstOf(a + b, delims) == Some(|a|)
  {
    assert (a + b)[..|a|] == a;
    FirstOfAt(a + b, delims, |a|);
  }

  lemma NotMember(s: string, c: char)
    requires NoneOf(s, {c})
    ensures c !in s
  {
  }

  lemma NoneOfNotMember(s: string, c: char)
    requires c !in s
    ensures NoneOf(s, {c})
  {
  }

  // ---------------------------------------------------------------------
  // str.split(sep) with a one-character separator

  /** Python's `sep.join(pieces)`. */
  function Join(pieces: seq<string>, sep: char): string
    requires |pieces| >= 1
  {
    if |pieces| == 1 then pieces[0] else pieces[0] + [sep] + Join(pieces[1..], sep)
  }

  /**
   * Python's `s.split(sep)`: the pieces between separators, empty pieces
   * included, and always at least one piece (`"".split("&") == [""]`).
   */
  function Split(s: string, sep: char): (pieces: seq<string>)
    ensures |pieces| >= 1
    ensures forall p <- pieces :: sep !in p
    decreases |s|
  {
    match FirstOf(s, {sep})
    case None =>
      NotMember(s, sep);
      [s]
    case Some(i) =>
      NotMember(s[..i], sep);
      [s[..i]] + Split(s[i + 1..], sep)
  }

  /** Joining the pieces of a split with the separator gives the text back. */
  lemma {:induction false} JoinSplit(s: string, sep: char)
    ensures Join(Split(s, sep), sep) == s
    decreases |s|
  {
    match FirstOf(s, {sep})
    case None =>
    case Some(i) =>
      JoinSplit(s[i + 1..], sep);
      assert s == s[..i] + [sep] + s[i + 1..];
  }

  /** Splitting undoes joining pieces that do not contain the separator. */
  lemma {:induction false} SplitJoin(pieces: seq<string>, sep: char)
    requires |pieces| >= 1 && forall p <- pieces :: sep !in p
    ensures Split(Join(pieces, sep), sep) == pieces
  {
    var s := Join(pieces, sep);
    NoneOfNotMember(pieces[0], sep);
    if |pieces| == 1 {
      assert FirstOf(s, {sep}).None?;
    } else {
      var tail := Join(pieces[1..], sep);
      assert s == pieces[0] + ([sep] + tail);
      FirstOfAfterPrefix(pieces[0], [sep] + tail, {sep});
      assert s[..|pieces[0]|] == pieces[0];
      assert s[|pieces[0]| + 1..] == tail;
      SplitJoin(pieces[1..], sep);
    }
  }

  /** `s.split(sep)` has exactly two pieces iff `s` is `a + sep + b` with no separator in `a` or `b`. */
  lemma SplitInTwo(s: string, sep: char, a: string, b: string)
    ensures Split(s, sep) == [a, b] <==> s == a + [sep] + b && sep !in a && sep !in b
  {
    JoinSplit(s, sep);
    if s == a + [sep] + b && sep !in a && sep !in b {
      assert [a, b][1..] == [b];
      SplitJoin([a, b], sep);
    }
  }

  // ---------------------------------------------------------------------
  // int() and str() on integers

  predicate IsDigit(c: char)
  {
    '0' <= c <= '9'
  }

  predicate AllDigits(s: string)
  {
    forall i :: 0 <= i < |s| ==> IsDigit(s[i])
  }

  function DigitChar(d: nat): (c: char)
    requires d < 10
    ensures IsDigit(c)
  {
    ('0' as int + d) as char
  }

  /** The value of a run of decimal digits, most significant first. */
  function DigitsValue(s: string): nat
    requires AllDigits(s)
  {
    if s == [] then 0
    else DigitsValue(s[..|s| - 1]) * 10 + (s[|s| - 1] as int - '0' as int)
  }

  /**
   * `int(text)` for a base-10 integer: an optional sign followed by one or
   * more ASCII digits; None where Python raises ValueError.
   */
  function ParseInt(text: string): (r: Option<int>)
    ensures r.Some? <==>
      if |text| > 0 && (text[0] == '-' || text[0] == '+')
      then |text| > 1 && AllDigits(text[1..])
      else |text| > 0 && AllDigits(text)
  {
    if |text| > 0 && (text[0] == '-' || text[0] == '+') then
      var digits := text[1..];
      if digits != [] && AllDigits(digits) then
        Some(if text[0] == '-' then -(DigitsValue(digits) as int) else DigitsValue(digits))
      else None
    else if text != [] && AllDigits(text) then Some(DigitsValue(text))
    else None
  }

  /** `str(n)` for a natural number: its decimal digits, no leading zero. */
  function NatToString(n: nat): (s: string)
    ensures |s| >= 1 && AllDigits(s)
    ensures |s| > 1 ==> s[0] != '0'
  {
    if n < 10 then [DigitChar(n)]
    else NatToString(n / 10) + [DigitChar(n % 10)]
  }

  /** `str(i)`: a minus sign for negative numbers, then the digits. */
  function IntToString(i: int): string
  {
    if i < 0 then "-" + NatToString(-i) else NatToString(i)
  }

  lemma {:induction false} DigitsOfNat(n: nat)
    ensures DigitsValue(NatToString(n)) == n
  {
    var s := NatToString(n);
    if n >= 10 {
      DigitsOfNat(n / 10);
      assert s[..|s| - 1] == NatToString(n / 10);
    }
  }

  /** `int(str(i)) == i`: reading back a printed integer gives it back. */
  lemma ParseIntToString(i: int)
    ensures ParseInt(IntToString(i)) == Some(i)
  {
    if i < 0 {
      DigitsOfNat(-i);
      assert IntToString(i)[1..] == NatToString(-i);
    } else {
      DigitsOfNat(i);
    }
  }
}

=== FILE: uri.dfy ===
/**
 * The generic URI of uri.py (`class Uri`): a permissive split of a string
 * into scheme, authority, path, query and fragment by first-occurrence
 * delimiter searches, and `str()` putting the five components back together.
 *
 * The split follows the component split of Appendix B of RFC 2396 loosely:
 * the scheme is whatever precedes the first ':' (its characters are not
 * checked as in section 3.1 of RFC 2396), the authority follows a "//"
 * (section 3.2 of RFC 2396), the path runs to the first '?' or '#', the
 * query to the first '#', and the fragment (section 4.1 of RFC 2396) is the
 * rest.
 */
module Uris {
  import opened Wrappers
  import opened Text

  /** The five components, as the fields of a parsed `Uri`. */
  datatype Components = Components(
    scheme: string, authority: string, path: string, query: string, fragment: string)

  /** Which delimiters a string spells out between its components: the "//" before the authority, the '?' before the query and the '#' before the fragment. */
  datatype Delims = Delims(slashes: bool, question: bool, hash: bool)

  /** What a path, query and fragment were split from the text after the authority. */
  datatype Tail = Tail(path: string, query: string, fragment: string, question: bool, hash: bool)

  /** The characters that end the authority. */
  const AuthorityEnd: set<char> := {'/', '?', '#'}

  /** The characters that end the path. */
  const PathEnd: set<char> := {'?', '#'}

  /** The components laid out one after the other, with the delimiters `d` says are present. */
  function Layout(c: Components, d: Delims): string
  {
    c.scheme + ":" + AuthorityText(c.authority, d.slashes)
    + TailText(c.path, c.query, c.fragment, d.question, d.hash)
  }

  /** The authority with its "//" in front when `slashes` holds. */
  function AuthorityText(authority: string, slashes: bool): string
  {
    (if slashes then "//" else "") + authority
  }

  /** Path, query and fragment, with the '?' and '#' in front of the last two when present. */
  function TailText(path: string, query: string, fragment: string, question: bool, hash: bool): string
  {
    path + (if question then "?" else "") + query + (if hash then "#" else "") + fragment
  }

  /** The delimiters `str()` writes: each one only when its component is non-empty. */
  function FormatDelims(c: Components): Delims
  {
    Delims(c.authority != "", c.query != "", c.fragment != "")
  }

  /** `str()` of a `Uri`: "scheme:", then "//authority", "?query" and "#fragment" each only when that component is non-empty, with the path always in between. */
  function Format(c: Components): string
  {
    var result := c.scheme + ":";
    var result := if c.authority != "" then result + "//" + c.authority else result;
    var result := result + c.path;
    var result := if c.query != "" then result + "?" + c.query else result;
    if c.fragment != "" then result + "#" + c.fragment else result
  }

  /** `str()` lays the components out with the delimiters of `FormatDelims`. */
  lemma FormatLayout(c: Components)
    ensures Format(c) == Layout(c, FormatDelims(c))
  {
    if c.authority == "" {
      assert AuthorityText(c.authority, false) == "";
    }
    if c.query == "" {
      assert c.path + "" + c.query == c.path;
    }
    if c.fragment == "" {
      assert TailText(c.path, c.query, c.fragment, c.query != "", false) == c.path + (if c.query != "" then "?" else "") + c.query;
    }
  }

  /**
   * The scheme and the text after it. Without any ':' in `s`, Python's
   * `find` gives -1, so the scheme is the slice `s[0:-1]` (all but the last
   * character) and the rest of the parse starts over at index 0.
   */
  function SplitScheme(s: string): (r: (string, string))
    ensures ':' in s ==> ':' !in r.0
    ensures ':' !in s ==> r.1 == s && r.0 == if s == [] then [] else s[..|s| - 1]
  {
    match FirstOf(s, {':'})
    case Some(i) =>
      NotMember(s[..i], ':');
      (s[..i], s[i + 1..])
    case None =>
      NotMember(s, ':');
      (if s == [] then [] else s[..|s| - 1], s)
  }

  /** With a ':' in `s`, the scheme, the ':' and the text after it make up `s`. */
  lemma SplitSchemeJoin(s: string)
    requires ':' in s
    ensures s == SplitScheme(s).0 + ":" + SplitScheme(s).1
  {
    match FirstOf(s, {':'})
    case Some(i) =>
      assert s == s[..i] + ":" + s[i + 1..];
    case None =>
      NotMember(s, ':');
  }

  predicate StartsWithSlashes(t: string)
  {
    |t| >= 2 && t[0] == '/' && t[1] == '/'
  }

  /**
   * The authority, when `t` starts with "//": what follows up to the first
   * '/', '?' or '#', and the text from that delimiter on.
   */
  function SplitOffAuthority(t: string): (r: (bool, string, string))
    ensures r.0 == StartsWithSlashes(t)
    ensures r.0 ==> NoneOf(r.1, AuthorityEnd) && (r.2 == "" || r.2[0] in AuthorityEnd)
    ensures !r.0 ==> r.1 == "" && r.2 == t
  {
    if StartsWithSlashes(t) then
      var split := SplitAtFirst(t[2..], AuthorityEnd);
      (true, split.0, split.1)
    else (false, "", t)
  }

  /** An authority split off `t` comes right after the "//" and right before the rest. */
  lemma SplitOffAuthorityJoin(t: string)
    ensures var r := SplitOffAuthority(t); t == AuthorityText(r.1, r.0) + r.2
  {
    if StartsWithSlashes(t) {
      assert t == "//" + t[2..];
      SplitAtFirstJoin(t[2..], AuthorityEnd);
    }
  }

  /**
   * Path, query and fragment from the text after the authority: the path
   * runs to the first '?' or '#'. When '#' comes first there is no query and
   * the fragment is the rest of the text WITH its '#' (uri.py keeps the
   * cursor on the '#' there). When '?' comes first the query runs from after
   * it to the next '#', and the fragment is what follows that '#'.
   */
  function ScanTail(t: string): (r: Tail)
    ensures NoneOf(r.path, PathEnd) && '#' !in r.query
    ensures !r.question ==> r.query == "" && !r.hash && (r.fragment == "" || r.fragment[0] == '#')
    ensures r.question && !r.hash ==> r.fragment == ""
  {
    var atPath := SplitAtFirst(t, PathEnd);
    var path, rest := atPath.0, atPath.1;
    if rest == "" || rest[0] == '#' then
      Tail(path, "", rest, false, false)
    else
      var atQuery := SplitAtFirst(rest[1..], {'#'});
      var query, hashRest := atQuery.0, atQuery.1;
      NotMember(query, '#');
      if hashRest == "" then Tail(path, query, "", true, false)
      else Tail(path, query, hashRest[1..], true, true)
  }

  lemma GlueQuery(t: string, path: string, rest: string, query: string)
    requires t == path + rest && rest != [] && rest[0] == '?' && rest[1..] == query + ""
    ensures t == TailText(path, query, "", true, false)
  {
    assert rest == "?" + query;
  }

  lemma GlueFragment(t: string, path: string, rest: string, query: string, hashRest: string)
    requires t == path + rest && rest != [] && rest[0] == '?' && rest[1..] == query + hashRest
    requires hashRest != [] && hashRest[0] == '#'
    ensures t == TailText(path, query, hashRest[1..], true, true)
  {
    assert hashRest == "#" + hashRest[1..];
    assert rest == "?" + query + "#" + hashRest[1..];
  }

  /** The parts `ScanTail` finds, with the delimiters it consumed, lay `t` out again. */
  lemma TailTextOfScan(t: string)
    ensures var r := ScanTail(t); t == TailText(r.path, r.query, r.fragment, r.question, r.hash)
  {
    var atPath := SplitAtFirst(t, PathEnd);
    var path, rest := atPath.0, atPath.1;
    if rest == "" || rest[0] == '#' {
      assert TailText(path, "", rest, false, false) == path + rest;
    } else {
      var atQuery := SplitAtFirst(rest[1..], {'#'});
      if atQuery.1 == "" {
        GlueQuery(t, path, rest, atQuery.0);
      } else {
        GlueFragment(t, path, rest, atQuery.0, atQuery.1);
      }
    }
  }

  /**
   * The whole split: scheme, then the optional authority, then path, query
   * and fragment, together with the delimiters consumed on the way.
   */
  function Scan(s: string): (r: (Components, Delims))
    ensures ':' in s ==> ':' !in r.0.scheme
    ensures ':' !in s ==> r.0.scheme == if s == [] then [] else s[..|s| - 1]
    ensures NoneOf(r.0.authority, AuthorityEnd) && NoneOf(r.0.path, PathEnd) && '#' !in r.0.query
    ensures r.1.slashes == StartsWithSlashes(SplitScheme(s).1)
    ensures !r.1.slashes ==> r.0.authority == ""
    ensures r.1.slashes && r.0.path != "" ==> r.0.path[0] == '/'
    ensures !r.1.question ==> r.0.query == "" && !r.1.hash && (r.0.fragment == "" || r.0.fragment[0] == '#')
    ensures r.1.question && !r.1.hash ==> r.0.fragment == ""
  {
    var scheme := SplitScheme(s);
    var authority := SplitOffAuthority(scheme.1);
    var tail := ScanTail(authority.2);
    var c := Components(scheme.0, authority.1, tail.path, tail.query, tail.fragment);
    var d := Delims(authority.0, tail.question, tail.hash);
    (c, d)
  }

  /**
   * With a ':' in `s`, the components `Scan` finds and the delimiters it
   * consumed lay `s` out exactly; without one, they lay out `s` behind an
   * empty scheme.
   */
  lemma ScanLayout(s: string)
    ensures var r := Scan(s);
      && (':' in s ==> s == Layout(r.0, r.1))
      && (':' !in s ==> ":" + s == Layout(r.0.(scheme := ""), r.1))
  {
    var scheme := SplitScheme(s);
    var authority := SplitOffAuthority(scheme.1);
    var c, d := Scan(s).0, Scan(s).1;
    TailTextOfScan(authority.2);
    SplitOffAuthorityJoin(scheme.1);
    GlueLayout(scheme.0, scheme.1, c, d);
    if ':' in s {
      SplitSchemeJoin(s);
    }
  }

  lemma GlueLayout(scheme: string, afterColon: string, c: Components, d: Delims)
    requires afterColon == AuthorityText(c.authority, d.slashes) + TailText(c.path, c.query, c.fragment, d.question, d.hash)
    ensures Layout(c.(scheme := scheme), d) == scheme + ":" + afterColon
    ensures Layout(c.(scheme := ""), d) == ":" + afterColon
  {
    assert "" + ":" + afterColon == ":" + afterColon;
  }

  /** The components `Uri(s)` ends up with. */
  function Parse(s: string): Components
  {
    Scan(s).0
  }

  /** `Parse` as the three stages that produce it. */
  lemma ParseStages(s: string)
    ensures var afterColon := SplitScheme(s).1;
      var rest := SplitOffAuthority(afterColon).2;
      Parse(s) == Components(SplitScheme(s).0, SplitOffAuthority(afterColon).1,
                             ScanTail(rest).path, ScanTail(rest).query, ScanTail(rest).fragment)
  {
  }

  // ---------------------------------------------------------------------
  // The Uri object

  /** A parsed URI whose five fields the URL view updates in place. */
  class Uri {
    var scheme: string
    var authority: string
    var path: string
    var query: string
    var fragment: string

    /** The fields as one value. */
    function Value(): Components
      reads this
    {
      Components(scheme, authority, path, query, fragment)
    }

    /** `str(uri)`. */
    function ToString(): string
      reads this
    {
      Format(Value())
    }

    /** `Uri(source)`: blank components, then the parse. */
    constructor (source: string)
      ensures Value() == Parse(source)
    {
      authority, path, query, fragment := "", "", "", "";
      new;
      ParseSource(source);
    }

    /**
     * `_parse`: finds the scheme, then hands the cursor `pos` just past the
     * ':' to `ParseAuthority`. Fields the parse does not reach keep their
     * blank value, so it is only called on a freshly blanked object.
     */
    method ParseSource(source: string)
      requires authority == "" && path == "" && query == "" && fragment == ""
      modifies this
      ensures Value() == Parse(source)
    {
      // str.find(":"), with None for Python's -1
      var colon := FirstOf(source, {':'});
      var pos: nat;
      if colon.Some? {
        scheme := source[..colon.value];
        pos := colon.value + 1;
      } else {
        // source[0:-1] drops the last character, and pos becomes -1 + 1
        scheme := if source == [] then [] else source[..|source| - 1];
        pos := 0;
      }
      SchemeStep(source, pos);
      ParseAuthority(source, pos);
      ParseStages(source);
    }

    /**
     * `_parse`, from the cursor `pos` just past the scheme's ':': an
     * authority follows "//" and runs to the first '/', '?' or '#'. When it
     * runs to the end of the source, the parse is done; otherwise
     * `ParseTail` takes over at the cursor.
     */
    method ParseAuthority(source: string, pos: nat)
      requires pos <= |source| && authority == "" && path == "" && query == "" && fragment == ""
      modifies this`authority, this`path, this`query, this`fragment
      ensures var split := SplitOffAuthority(source[pos..]);
        var tail := ScanTail(split.2);
        && authority == split.1
        && path == tail.path && query == tail.query && fragment == tail.fragment
    {
      ghost var split := SplitOffAuthority(source[pos..]);
      var cursor := pos;
      // source[pos:pos+2] == "//"
      if pos + 2 <= |source| && source[pos] == '/' && source[pos + 1] == '/' {
        cursor := pos + 2;
        var delimiter := FirstOf(source[cursor..], AuthorityEnd);
        if delimiter.Some? {
          AuthorityUpTo(source, pos, delimiter.value);
          authority := source[cursor..cursor + delimiter.value];
          cursor := cursor + delimiter.value;  // the length of the authority
        } else {
          AuthorityToEnd(source, pos);
          authority := source[cursor..];
          ScanTailNoDelimiter("");
          return;
        }
      } else {
        NoAuthority(source, pos);
      }
      assert split.2 == source[cursor..];
      ParseTail(source, cursor);
    }

    /**
     * `_parse`, from the cursor `pos` on: the path runs to the first '?' or
     * '#'; a '#' there starts the fragment (the cursor stays on the '#'); a
     * '?' starts the query, which runs to the next '#', after which comes
     * the fragment.
     */
    method ParseTail(source: string, pos: nat)
      requires pos <= |source| && path == "" && query == "" && fragment == ""
      modifies this`path, this`query, this`fragment
      ensures var tail := ScanTail(source[pos..]);
        path == tail.path && query == tail.query && fragment == tail.fragment
    {
      // the source from the cursor on; `rest[k]` is `source[pos + k]`
      var rest := source[pos..];
      if |rest| == 0 {
        ScanTailNoDelimiter(rest);
        return;
      }

      // do we have a query or fragment?
      var pathDelimiter := FirstOf(rest, PathEnd);
      if pathDelimiter.Some? {
        var i := pathDelimiter.value;
        path := rest[..i];
        if rest[i] == '#' {
          ScanTailHashAt(rest, i);
          fragment := rest[i..];
          return;
        } else {
          var queryDelimiter := FirstOf(rest[i..], {'#'});
          if queryDelimiter.Some? {
            var j := queryDelimiter.value;
            ScanTailQueryFragment(rest, i, j);
            query := rest[i + 1..i + j];
            fragment := rest[i + j + 1..];
          } else {
            ScanTailQueryOnly(rest, i);
            query := rest[i + 1..];
            return;
          }
        }
      } else {
        ScanTailNoDelimiter(rest);
        path := rest;
      }
    }
  }

  /** Python's `source.find(":")` and the cursor just past it. */
  lemma SchemeStep(source: string, pos: nat)
    requires match FirstOf(source, {':'})
      case Some(i) => pos == i + 1
      case None => pos == 0
    ensures pos <= |source|
    ensures SplitScheme(source).1 == source[pos..]
    ensures SplitScheme(source).0 == match FirstOf(source, {':'})
      case Some(i) => source[..i]
      case None => if source == [] then [] else source[..|source| - 1]
  {
  }

  // `SplitOffAuthority` on `source[pos..]`, in the terms of the cursor code.

  lemma NoAuthority(source: string, pos: nat)
    requires pos <= |source| && !(pos + 2 <= |source| && source[pos] == '/' && source[pos + 1] == '/')
    ensures SplitOffAuthority(source[pos..]) == (false, "", source[pos..])
  {
  }

  lemma AuthorityUpTo(source: string, pos: nat, k: nat)
    requires pos + 2 <= |source| && source[pos] == '/' && source[pos + 1] == '/'
    requires FirstOf(source[pos + 2..], AuthorityEnd) == Some(k)
    ensures SplitOffAuthority(source[pos..]) == (true, source[pos + 2..pos + 2 + k], source[pos + 2 + k..])
  {
    var t := source[pos..];
    assert t[2..] == source[pos + 2..];
    PrefixShift(source, pos + 2, k, pos + 2 + k);
    SuffixShift(source, pos + 2, k, pos + 2 + k);
  }

  lemma AuthorityToEnd(source: string, pos: nat)
    requires pos + 2 <= |source| && source[pos] == '/' && source[pos + 1] == '/'
    requires FirstOf(source[pos + 2..], AuthorityEnd).None?
    ensures SplitOffAuthority(source[pos..]) == (true, source[pos + 2..], "")
  {
    var t := source[pos..];
    assert t[2..] == source[pos + 2..];
  }

  // Slicing a suffix `s[p..]` is slicing `s` at shifted bounds; the shifted
  // bounds are passed in the caller's own terms.

  lemma SuffixShift(s: string, p: nat, a: nat, lo: nat)
    requires p + a <= |s| && lo == p + a
    ensures s[p..][a..] == s[lo..]
  {
  }

  lemma PrefixShift(s: string, p: nat, b: nat, hi: nat)
    requires p + b <= |s| && hi == p + b
    ensures s[p..][..b] == s[p..hi]
  {
  }

  // `ScanTail` in the terms of the cursor code, one branch at a time: where
  // the first '?' or '#' falls, and where the first '#' falls counting from
  // the '?'.

  lemma ScanTailNoDelimiter(t: string)
    requires FirstOf(t, PathEnd).None?
    ensures ScanTail(t) == Tail(t, "", "", false, false)
  {
  }

  lemma ScanTailHashAt(t: string, i: nat)
    requires FirstOf(t, PathEnd) == Some(i) && t[i] == '#'
    ensures ScanTail(t) == Tail(t[..i], "", t[i..], false, false)
  {
  }

  lemma ScanTailQueryOnly(t: string, i: nat)
    requires FirstOf(t, PathEnd) == Some(i) && t[i] == '?' && FirstOf(t[i..], {'#'}).None?
    ensures ScanTail(t) == Tail(t[..i], t[i + 1..], "", true, false)
  {
    var rest := t[i..];
    assert rest[1..] == t[i + 1..];
    NoneOfSuffix(rest, 1, {'#'});
  }

  lemma ScanTailQueryFragment(t: string, i: nat, j: nat)
    requires FirstOf(t, PathEnd) == Some(i) && t[i] == '?' && FirstOf(t[i..], {'#'}) == Some(j)
    ensures 0 < j && ScanTail(t) == Tail(t[..i], t[i + 1..i + j], t[i + j + 1..], true, true)
  {
    var rest := t[i..];
    var afterQuestion := rest[1..];
    assert afterQuestion == t[i + 1..];
    assert afterQuestion[j - 1] == '#';
    NoneOfSuffix(rest[..j], 1, {'#'});
    assert rest[..j][1..] == afterQuestion[..j - 1];
    FirstOfAt(afterQuestion, {'#'}, j - 1);
    assert afterQuestion[..j - 1] == t[i + 1..i + j];
    assert afterQuestion[j - 1..][1..] == t[i + j + 1..];
  }

  // ---------------------------------------------------------------------
  // str() after parsing, and parsing after str()

  function Count(b: bool, n: nat): nat
  {
    if b then n else 0
  }

  lemma LayoutLength(c: Components, d: Delims)
    ensures |Layout(c, d)| == |c.scheme| + 1 + Count(d.slashes, 2) + |c.authority| + |c.path|
      + Count(d.question, 1) + |c.query| + Count(d.hash, 1) + |c.fragment|
  {
  }

  /**
   * `str(Uri(s)) == s` exactly when `s` has a ':' and every delimiter `s`
   * spells out is followed by a non-empty component, which is when the
   * delimiters the parse consumed are the ones `str()` writes back.
   * Otherwise the two differ: `str()` always writes a ':', a "//", '?' or
   * '#' followed by nothing is dropped, and a fragment reached through '#'
   * before any '?' gets a second '#'.
   */
  lemma {:induction false} FormatParse(s: string)
    ensures Format(Parse(s)) == s <==> ':' in s && Scan(s).1 == FormatDelims(Parse(s))
  {
    if ':' in s {
      FormatParseWithColon(s);
    } else {
      FormatWritesColon(Parse(s));
    }
  }

  /** With a ':' in `s`, `str(Uri(s)) == s` iff the consumed delimiters are the ones `str()` writes. */
  lemma {:induction false} FormatParseWithColon(s: string)
    requires ':' in s
    ensures Format(Parse(s)) == s <==> Scan(s).1 == FormatDelims(Parse(s))
  {
    var c, d := Scan(s).0, Scan(s).1;
    ScanLayout(s);
    FormatLayout(c);
    LayoutLength(c, d);
    LayoutLength(c, FormatDelims(c));
  }

  /** `str()` always writes the ':' after the scheme. */
  lemma FormatWritesColon(c: Components)
    ensures |c.scheme| < |Format(c)| && Format(c)[|c.scheme|] == ':'
  {
    FormatLayout(c);
  }

  /**
   * Components `str()` can write out so that parsing reads each one back:
   * no component contains the delimiter that ends it, a path after an
   * authority starts with '/', a path without one does not start with "//",
   * and a fragment comes with a non-empty query (a fragment right after the
   * path would be read back with its '#').
   */
  predicate WellFormed(c: Components)
  {
    && ':' !in c.scheme
    && NoneOf(c.authority, AuthorityEnd)
    && NoneOf(c.path, PathEnd)
    && '#' !in c.query
    && (c.authority != "" && c.path != "" ==> c.path[0] == '/')
    && (c.authority == "" ==> !StartsWithSlashes(c.path))
    && (c.fragment != "" ==> c.query != "")
  }

  lemma SplitSchemeOf(scheme: string, afterColon: string)
    requires ':' !in scheme
    ensures SplitScheme(scheme + ":" + afterColon) == (scheme, afterColon)
  {
    var s := scheme + ":" + afterColon;
    NoneOfNotMember(scheme, ':');
    assert s == scheme + (":" + afterColon);
    FirstOfAfterPrefix(scheme, ":" + afterColon, {':'});
    assert s[..|scheme|] == scheme && s[|scheme| + 1..] == afterColon;
  }

  lemma ScanTailOf(path: string, query: string, fragment: string)
    requires NoneOf(path, PathEnd) && '#' !in query && (fragment != "" ==> query != "")
    ensures ScanTail(TailText(path, query, fragment, query != "", fragment != ""))
         == Tail(path, query, fragment, query != "", fragment != "")
  {
    var t := TailText(path, query, fragment, query != "", fragment != "");
    if query == "" {
      assert t == path + "";
      SplitAtFirstOf(path, "", PathEnd);
    } else {
      var hashRest := if fragment != "" then "#" + fragment else "";
      var rest := "?" + query + hashRest;
      assert t == path + rest;
      SplitAtFirstOf(path, rest, PathEnd);
      assert rest[1..] == query + hashRest;
      NoneOfNotMember(query, '#');
      SplitAtFirstOf(query, hashRest, {'#'});
      if fragment != "" {
        assert hashRest[1..] == fragment;
      }
    }
  }

  /**
   * The authority step reads back an authority `str()` wrote in front of
   * text that starts with a path and then '?', '#' or nothing.
   */
  lemma SplitOffAuthorityOfText(authority: string, path: string, tailText: string)
    requires NoneOf(authority, AuthorityEnd) && NoneOf(path, PathEnd)
    requires |path| <= |tailText| && tailText[..|path|] == path
    requires |tailText| > |path| ==> tailText[|path|] in PathEnd
    requires authority != "" && path != "" ==> path[0] == '/'
    requires authority == "" ==> !StartsWithSlashes(path)
    ensures SplitOffAuthority(AuthorityText(authority, authority != "") + tailText)
         == (authority != "", authority, tailText)
  {
    var afterColon := AuthorityText(authority, authority != "") + tailText;
    if authority != "" {
      assert tailText == [] || tailText[0] in AuthorityEnd by {
        if path != "" {
          assert tailText[0] == path[0];
        }
      }
      assert afterColon[..2] == "//";
      assert afterColon[2..] == authority + tailText;
      SplitAtFirstOf(authority, tailText, AuthorityEnd);
    } else {
      assert afterColon == tailText;
      assert !StartsWithSlashes(tailText) by {
        if |path| >= 2 {
          assert tailText[..2] == path[..2];
        }
      }
    }
  }

  lemma TailTextStart(path: string, query: string, fragment: string, question: bool, hash: bool)
    requires !question ==> query == ""
    requires !hash ==> fragment == ""
    ensures var t := TailText(path, query, fragment, question, hash);
      |path| <= |t| && t[..|path|] == path && (|t| > |path| ==> t[|path|] in PathEnd)
  {
  }

  /**
   * Parsing what `str()` writes gives back well-formed components, and the
   * delimiters it consumes are exactly the ones `str()` wrote.
   */
  lemma {:induction false} ParseFormat(c: Components)
    requires WellFormed(c)
    ensures Scan(Format(c)) == (c, FormatDelims(c))
    ensures Parse(Format(c)) == c
  {
    var d := FormatDelims(c);
    var tailText := TailText(c.path, c.query, c.fragment, d.question, d.hash);
    var afterColon := AuthorityText(c.authority, d.slashes) + tailText;
    FormatLayout(c);
    GlueLayout(c.scheme, afterColon, c, d);
    SplitSchemeOf(c.scheme, afterColon);
    TailTextStart(c.path, c.query, c.fragment, d.question, d.hash);
    SplitOffAuthorityOfText(c.authority, c.path, tailText);
    ScanTailOf(c.path, c.query, c.fragment);
  }

  /**
   * With no ':' in `s` the scheme is `s` less its last character, and the
   * other four components are those of parsing ":" + `s`: the whole of `s`
   * is read again as the text after the scheme.
   */
  lemma {:induction false} ParseWithoutColon(s: string)
    requires ':' !in s
    ensures Parse(s) == Parse(":" + s).(scheme := if s == [] then [] else s[..|s| - 1])
  {
    assert ":" + s == "" + ":" + s;
    SplitSchemeOf("", s);
  }

  /**
   * A parse is read back field by field, and printing after parsing is
   * idempotent, unless one of the two quirks below applies: a fragment
   * reached through '#' before any '?', or a path that starts with "//"
   * after an empty authority.
   */
  lemma {:induction false} ParsedWellFormed(s: string)
    requires Parse(s).fragment != "" ==> Parse(s).query != ""
    requires Parse(s).authority == "" ==> !StartsWithSlashes(Parse(s).path)
    ensures WellFormed(Parse(s))
    ensures Parse(Format(Parse(s))) == Parse(s)
    ensures Format(Parse(Format(Parse(s)))) == Format(Parse(s))
  {
    if ':' !in s && s != [] {
      assert forall i :: 0 <= i < |s| - 1 ==> s[..|s| - 1][i] == s[i];
    }
    ParseFormat(Parse(s));
  }

  /**
   * "a:////" parses to an empty authority and the path "//"; `str()` drops
   * the empty "//" and writes "a://", whose "//" is then read as an empty
   * authority, so the path is lost and the next round prints "a:".
   */
  lemma SlashPathReadAsAuthority()
    ensures Parse("a:////") == Components("a", "", "//", "", "")
    ensures Format(Parse("a:////")) == "a://"
    ensures Parse("a://") == Components("a", "", "", "", "")
    ensures Format(Parse("a://")) == "a:"
  {
    var s := "a:////";
    FirstOfAt(s, {':'}, 1);
    assert s[2..] == "////";
    assert SplitOffAuthority("////") == (true, "", "//") by {
      FirstOfAt("//", AuthorityEnd, 0);
    }
    assert ScanTail("//") == Tail("//", "", "", false, false) by {
      assert NoneOf("//", PathEnd);
    }
    var t := "a://";
    FirstOfAt(t, {':'}, 1);
    assert t[2..] == "//";
    assert SplitOffAuthority("//") == (true, "", "");
  }

  // ---------------------------------------------------------------------
  // The strings of the test suite, and the two quirks

  /**
   * A fragment reached through a '#' that comes before any '?' keeps that
   * '#': parsing `str()` of such components adds a '#' to the fragment.
   */
  lemma {:induction false} FragmentKeepsHash(c: Components)
    requires WellFormed(c.(fragment := "")) && c.query == "" && c.fragment != ""
    ensures Parse(Format(c)) == c.(fragment := "#" + c.fragment)
  {
    var d := FormatDelims(c);
    var tailText := TailText(c.path, c.query, c.fragment, d.question, d.hash);
    var afterColon := AuthorityText(c.authority, d.slashes) + tailText;
    FormatLayout(c);
    GlueLayout(c.scheme, afterColon, c, d);
    SplitSchemeOf(c.scheme, afterColon);
    TailTextStart(c.path, c.query, c.fragment, d.question, d.hash);
    SplitOffAuthorityOfText(c.authority, c.path, tailText);
    ScanTailHashFirst(c.path, c.fragment);
  }

  lemma ScanTailHashFirst(path: string, fragment: string)
    requires NoneOf(path, PathEnd)
    ensures ScanTail(TailText(path, "", fragment, false, true)) == Tail(path, "", "#" + fragment, false, false)
  {
    assert TailText(path, "", fragment, false, true) == path + ("#" + fragment);
    SplitAtFirstOf(path, "#" + fragment, PathEnd);
  }

  /** So `str()` after parsing is not idempotent there: each further round adds another '#'. */
  lemma {:induction false} FormatParseNotIdempotent(c: Components)
    requires WellFormed(c.(fragment := "")) && c.query == "" && c.fragment != ""
    ensures |Format(Parse(Format(c)))| == |Format(c)| + 1
  {
    FragmentKeepsHash(c);
    var c' := c.(fragment := "#" + c.fragment);
    FormatLayout(c);
    FormatLayout(c');
    LayoutLength(c, FormatDelims(c));
    LayoutLength(c', FormatDelims(c'));
  }

  // The test strings below are parameters pinned by a `requires` that spells
  // them as concatenations of their components: equating one long literal with
  // the concatenation `str()` writes costs the solver several times its budget.
  /** tests.py, testHttpUri: the URL written piece by piece. */
  lemma HttpUri(s: string)
    requires s == "http" + ":" + "//" + "www.google.com" + "/mail" + "?" + "locale=en_US" + "#" + "tab1"
    ensures Parse(s) == Components("http", "www.google.com", "/mail", "locale=en_US", "tab1")
  {
    var c := Components("http", "www.google.com", "/mail", "locale=en_US", "tab1");
    HttpWellFormed(c);
    ParseFormat(c);
  }

  lemma HttpWellFormed(c: Components)
    requires c == Components("http", "www.google.com", "/mail", "locale=en_US", "tab1")
    ensures WellFormed(c)
  {
  }

  lemma ImaginaryUri(s: string)
    requires s == "urn" + ":" + "example:animal:ferret:nose"
    ensures Parse(s) == Components("urn", "", "example:animal:ferret:nose", "", "")
    ensures Format(Parse(s)) == s
  {
    var c := Components("urn", "", "example:animal:ferret:nose", "", "");
    ImaginaryComponentsWellFormed(c);
    ParseFormat(c);
  }

  lemma ImaginaryComponentsWellFormed(c: Components)
    requires c == Components("urn", "", "example:animal:ferret:nose", "", "")
    ensures WellFormed(c)
  {
    assert c.path[0] == 'e';
  }

  lemma BitlyUri(s: string)
    requires s == "http" + ":" + "//" + "bit.ly" + "/f3fvFA"
    ensures Parse(s) == Components("http", "bit.ly", "/f3fvFA", "", "")
  {
    var c := Components("http", "bit.ly", "/f3fvFA", "", "");
    ParseFormat(c);
  }
}

=== FILE: url.dfy ===
/**
 * The URL view of uri.py: a `Url` wraps a `Uri`, reads its authority as
 * "hostname[:port]", rebuilds the authority when the hostname or the port
 * is set, and passes the scheme (as the protocol), the query and the
 * fragment (as the hash) through to the wrapped `Uri`.
 */
module Urls {
  import opened Wrappers
  import opened Text
  import opened Uris

  /** What `Url._parse` reads out of an authority. */
  datatype HostPort = HostPort(hostname: string, port: Option<int>)

  /** `int()` refused the text after the authority's ':'. */
  datatype PortError = InvalidPort(text: string)

  // ---------------------------------------------------------------------
  // hostname and port

  /**
   * `Url._parse`: an empty authority leaves the hostname blank and the port
   * unset; otherwise the hostname runs to the first ':' and the port is the
   * integer after it, or the whole authority is the hostname when it has no
   * ':'. Fails, as `int()` raises, when the text after the ':' is not an
   * integer; `hostname` is then already assigned (see `HostBeforeColon`).
   */
  function SplitHostPort(authority: string): (r: Result<HostPort, PortError>)
    ensures ':' !in authority ==> r == Success(HostPort(authority, None))
    ensures r.Success? ==> ':' !in r.value.hostname
    ensures r.Success? && r.value.port.Some? ==>
      var n := |r.value.hostname|;
      n < |authority| && authority[..n] == r.value.hostname && authority[n] == ':'
      && ParseInt(authority[n + 1..]) == r.value.port
    ensures r.Success? && r.value.port.None? ==> r.value.hostname == authority
    ensures r.Failure? <==> ':' in authority && ParseInt(authority[HostBeforeColon(authority).1 + 1..]).None?
  {
    if |authority| > 0 then
      match FirstOf(authority, {':'})
      case Some(delimiter) =>
        NotMember(authority[..delimiter], ':');
        (match ParseInt(authority[delimiter + 1..])
         case Some(port) => Success(HostPort(authority[..delimiter], Some(port)))
         case None => Failure(InvalidPort(authority[delimiter + 1..])))
      case None =>
        NotMember(authority, ':');
        Success(HostPort(authority, None))
    else Success(HostPort("", None))
  }

  /**
   * The hostname `Url._parse` has assigned when it reaches `int()`: the text
   * before the first ':', with that ':''s index (the whole authority and its
   * length when there is none).
   */
  function HostBeforeColon(authority: string): (r: (string, nat))
    ensures r.1 <= |authority| && r.0 == authority[..r.1] && ':' !in r.0
    ensures r.1 < |authority| <==> ':' in authority
    ensures r.1 < |authority| ==> authority[r.1] == ':'
  {
    match FirstOf(authority, {':'})
    case Some(delimiter) =>
      NotMember(authority[..delimiter], ':');
      (authority[..delimiter], delimiter)
    case None =>
      NotMember(authority, ':');
      assert authority[..|authority|] == authority;
      (authority, |authority|)
  }

  /** Python's truthiness of the port: None and 0 are false. */
  predicate HasPort(port: Option<int>)
  {
    port.Some? && port.value != 0
  }

  /**
   * `_generate_authority`: the hostname, unless the port is truthy, in which
   * case ":" and the port's decimal digits, and the hostname is dropped.
   */
  function RenderAuthority(hostname: string, port: Option<int>): string
  {
    if HasPort(port) then ":" + IntToString(port.value) else hostname
  }

  /**
   * Reading back a rebuilt authority: a hostname without ':' comes back
   * alone when the port is falsy (a port of 0 comes back as None), and with
   * a truthy port only the port comes back, behind an empty hostname.
   */
  lemma {:induction false} SplitRenderedAuthority(hostname: string, port: Option<int>)
    requires ':' !in hostname
    ensures SplitHostPort(RenderAuthority(hostname, port)) ==
      if HasPort(port) then Success(HostPort("", port)) else Success(HostPort(hostname, None))
  {
    if HasPort(port) {
      var authority := ":" + IntToString(port.value);
      FirstOfAt(authority, {':'}, 0);
      assert authority[1..] == IntToString(port.value);
      ParseIntToString(port.value);
    }
  }

  /** Rebuilding and re-reading the authority keeps the hostname exactly when no truthy port is set. */
  lemma HostnameSurvives(hostname: string, port: Option<int>)
    requires ':' !in hostname
    ensures SplitHostPort(RenderAuthority(hostname, port)).value.hostname == hostname <==> !HasPort(port) || hostname == ""
  {
    SplitRenderedAuthority(hostname, port);
  }

  // ---------------------------------------------------------------------
  // query parameters

  /** A `&`-piece that splits on '=' into exactly two items, as a key and a value. */
  function PairOf(piece: string): Option<(string, string)>
  {
    var items := Split(piece, '=');
    if |items| == 2 then Some((items[0], items[1])) else None
  }

  /** `piece` is `key=value` with no other '='. */
  predicate IsPair(piece: string, key: string, value: string)
  {
    piece == key + "=" + value && '=' !in key && '=' !in value
  }

  /** A piece is a pair exactly when it is key '=' value with no other '='. */
  lemma PairOfShape(piece: string, key: string, value: string)
    ensures PairOf(piece) == Some((key, value)) <==> IsPair(piece, key, value)
  {
    SplitInTwo(piece, '=', key, value);
  }

  /** The `for pair in ...` loop: later pairs overwrite earlier ones with the same key. */
  function CollectPairs(pieces: seq<string>): map<string, string>
  {
    if |pieces| == 0 then map[]
    else
      var result := CollectPairs(pieces[..|pieces| - 1]);
      match PairOf(pieces[|pieces| - 1])
      case Some(pair) => result[pair.0 := pair.1]
      case None => result
  }

  /** `get_query_parameters` on the query text. */
  function QueryParameters(query: string): map<string, string>
  {
    if query == "" then map[] else CollectPairs(Split(query, '&'))
  }

  /** `piece` is a pair whose key is `key`. */
  predicate PairHasKey(piece: string, key: string)
  {
    PairOf(piece).Some? && PairOf(piece).value.0 == key
  }

  /** A key is present exactly when some piece is a pair with that key. */
  lemma {:induction false} CollectKeys(pieces: seq<string>, key: string)
    ensures key in CollectPairs(pieces) <==> exists i :: 0 <= i < |pieces| && PairHasKey(pieces[i], key)
  {
    if |pieces| > 0 {
      var init := pieces[..|pieces| - 1];
      CollectKeys(init, key);
      assert key in CollectPairs(pieces) <==> key in CollectPairs(init) || PairHasKey(pieces[|pieces| - 1], key);
      if exists i :: 0 <= i < |init| && PairHasKey(init[i], key) {
        var i :| 0 <= i < |init| && PairHasKey(init[i], key);
        assert pieces[i] == init[i];
      }
      if exists i :: 0 <= i < |pieces| && PairHasKey(pieces[i], key) {
        var i :| 0 <= i < |pieces| && PairHasKey(pieces[i], key);
        if i < |init| {
          assert init[i] == pieces[i];
        }
      }
    }
  }

  /**
   * A key maps to the value of the LAST pair with that key: some piece
   * carries exactly that key and value, and no later piece is a pair with
   * the same key.
   */
  lemma {:induction false} CollectLastWins(pieces: seq<string>, key: string)
    requires key in CollectPairs(pieces)
    ensures exists i :: 0 <= i < |pieces| && PairOf(pieces[i]) == Some((key, CollectPairs(pieces)[key])) &&
              forall j :: i < j < |pieces| ==> !PairHasKey(pieces[j], key)
  {
    var init := pieces[..|pieces| - 1];
    var last := pieces[|pieces| - 1];
    if PairHasKey(last, key) {
      assert PairOf(pieces[|pieces| - 1]) == Some((key, CollectPairs(pieces)[key]));
    } else {
      assert CollectPairs(pieces)[key] == CollectPairs(init)[key];
      CollectLastWins(init, key);
      var i :| 0 <= i < |init| && PairOf(init[i]) == Some((key, CollectPairs(init)[key])) &&
        forall j :: i < j < |init| ==> !PairHasKey(init[j], key);
      assert pieces[i] == init[i];
      forall j | i < j < |pieces|
        ensures !PairHasKey(pieces[j], key)
      {
        if j < |init| {
          assert pieces[j] == init[j];
        }
      }
    }
  }

  /** The shortcut for an empty query changes nothing: "" splits into one piece that is no pair. */
  lemma EmptyQueryShortcut()
    ensures CollectPairs(Split("", '&')) == map[]
  {
    assert Split("", '&') == [""];
    assert Split("", '=') == [""];
  }

  /**
   * `get_query_parameters` keeps a key exactly when one of the query's
   * `&`-pieces is that key, '=', and a value with no further '='.
   */
  lemma QueryKeys(query: string, key: string)
    ensures key in QueryParameters(query) <==> exists piece, value :: piece in Split(query, '&') && IsPair(piece, key, value)
  {
    var pieces := Split(query, '&');
    if query == "" {
      EmptyQueryShortcut();
    }
    CollectKeys(pieces, key);
    if key in QueryParameters(query) {
      var i :| 0 <= i < |pieces| && PairHasKey(pieces[i], key);
      PairOfShape(pieces[i], key, PairOf(pieces[i]).value.1);
      assert pieces[i] in pieces;
    }
    if exists piece, value :: piece in pieces && IsPair(piece, key, value) {
      var piece, value :| piece in pieces && IsPair(piece, key, value);
      PairOfShape(piece, key, value);
      var i :| 0 <= i < |pieces| && pieces[i] == piece;
    }
  }

  // The test strings below are parameters pinned by a `requires` that spells
  // them as concatenations of their components: equating one long literal with
  // the concatenation `str()` writes costs the solver several times its budget.
  /** tests.py, testUrl and testInputOutput: the parts of a URL with a port, and its text read back. */
  lemma GoogleUrl(s: string)
    requires s == "http" + ":" + "//" + "www.google.com:80" + "/mail" + "?" + "locale=en_US" + "#" + "tab1"
    ensures Parse(s) == Components("http", "www.google.com:80", "/mail", "locale=en_US", "tab1")
    ensures SplitHostPort(Parse(s).authority) == Success(HostPort("www.google.com", Some(80)))
    ensures Format(Parse(s)) == s
  {
    var c := Components("http", "www.google.com:80", "/mail", "locale=en_US", "tab1");
    GoogleWellFormed(c);
    ParseFormat(c);
    GooglePort(c.authority);
  }

  lemma GoogleWellFormed(c: Components)
    requires c == Components("http", "www.google.com:80", "/mail", "locale=en_US", "tab1")
    ensures WellFormed(c)
  {
  }

  lemma GooglePort(authority: string)
    requires authority == "www.google.com:80"
    ensures SplitHostPort(authority) == Success(HostPort("www.google.com", Some(80)))
  {
    assert authority[14] == ':';
    FirstOfAt(authority, {':'}, 14);
    assert authority[..14] == "www.google.com";
    assert authority[15..] == "80" == IntToString(80);
    ParseIntToString(80);
  }

  /** Two pieces that are both pairs: the second one's key is written last. */
  lemma {:induction false} CollectTwoPairs(pieces: seq<string>, k0: string, v0: string, k1: string, v1: string)
    requires |pieces| == 2 && IsPair(pieces[0], k0, v0) && IsPair(pieces[1], k1, v1)
    ensures CollectPairs(pieces) == map[k0 := v0][k1 := v1]
  {
    PairOfShape(pieces[0], k0, v0);
    PairOfShape(pieces[1], k1, v1);
    var front := pieces[..1];
    assert front[..0] == [] && front[0] == pieces[0];
    assert CollectPairs(front) == map[k0 := v0];
    assert pieces[..|pieces| - 1] == front;
  }

  /** tests.py, testMultiQueryParameters: two pairs give two keys. */
  lemma TwoQueryParameters(query: string)
    requires query == "locale" + "=" + "en_US" + "&" + "support" + "=" + "true"
    ensures QueryParameters(query) == map["locale" := "en_US", "support" := "true"]
  {
    var first, second := "locale" + "=" + "en_US", "support" + "=" + "true";
    assert '&' !in first && '&' !in second;
    SplitInTwo(query, '&', first, second);
    assert IsPair(first, "locale", "en_US");
    assert IsPair(second, "support", "true");
    assert query != "" && Split(query, '&') == [first, second];
    CollectTwoPairs([first, second], "locale", "en_US", "support", "true");
  }

  /** tests.py, testNoQueryParameters: a piece with no '=' is dropped. */
  lemma NoQueryParameters(query: string)
    requires query == "missingValue"
    ensures QueryParameters(query) == map[]
  {
    NoneOfNotMember(query, '&');
    NoneOfNotMember(query, '=');
    assert Split(query, '&') == [query];
    assert Split(query, '=') == [query];
    assert PairOf(query).None?;
    assert [query][..0] == [];
    assert CollectPairs([query]) == map[];
  }

  // ---------------------------------------------------------------------
  // the Url object

  /** A URL: the wrapped `Uri` plus the hostname and port read out of its authority. */
  class Url {
    const uri: Uri
    var hostname: string
    var port: Option<int>

    /** `Url.__init__` up to its call of `_parse`. */
    constructor (source: string)
      ensures fresh(uri) && uri.Value() == Parse(source)
      ensures hostname == "" && port == None
    {
      uri := new Uri(source);
      port := None;
      hostname := "";
    }

    /**
     * `_parse`: reads the hostname and port out of the wrapped authority.
     * On an `int()` failure it returns the error, with the hostname already
     * assigned and the port left as it was.
     */
    method ParseAuthority() returns (error: Option<PortError>)
      requires hostname == "" && port == None
      modifies this`hostname, this`port
      ensures match SplitHostPort(uri.authority)
        case Success(hp) => error.None? && hostname == hp.hostname && port == hp.port
        case Failure(e) => error == Some(e) && hostname == HostBeforeColon(uri.authority).0 && port == old(port)
    {
      error := None;
      var authority := uri.authority;
      if |authority| > 0 {
        var delimiter := FirstOf(authority, {':'});
        if delimiter.Some? {
          hostname := authority[..delimiter.value];
          var value := ParseInt(authority[delimiter.value + 1..]);
          if value.None? {
            error := Some(InvalidPort(authority[delimiter.value + 1..]));
            return;
          }
          port := value;
        } else {
          hostname := authority;
        }
      }
    }

    /** `_generate_authority`: overwrites the wrapped authority and nothing else. */
    method GenerateAuthority()
      modifies uri`authority
      ensures uri.Value() == old(uri.Value()).(authority := RenderAuthority(hostname, port))
    {
      var auth := hostname;
      if HasPort(port) {
        auth := ":" + IntToString(port.value);
      }
      uri.authority := auth;
    }

    /** The `hostname` setter: records the hostname and rebuilds the wrapped authority. */
    method SetHostname(value: string)
      modifies this`hostname, uri`authority
      ensures Hostname() == value && Port() == old(Port())
      ensures uri.Value() == old(uri.Value()).(authority := RenderAuthority(value, Port()))
    {
      hostname := value;
      GenerateAuthority();
    }

    function Hostname(): string
      reads this
    {
      hostname
    }

    /** The `port` setter: records the port and rebuilds the wrapped authority. */
    method SetPort(value: Option<int>)
      modifies this`port, uri`authority
      ensures Port() == value && Hostname() == old(Hostname())
      ensures uri.Value() == old(uri.Value()).(authority := RenderAuthority(Hostname(), value))
    {
      port := value;
      GenerateAuthority();
    }

    function Port(): Option<int>
      reads this
    {
      port
    }

    /** The protocol is the wrapped scheme. */
    function Protocol(): string
      reads this, uri
    {
      uri.scheme
    }

    method SetProtocol(value: string)
      modifies uri`scheme
      ensures Protocol() == value
      ensures uri.Value() == old(uri.Value()).(scheme := value)
    {
      uri.scheme := value;
    }

    /** The hash is the wrapped fragment. */
    function Hash(): string
      reads this, uri
    {
      uri.fragment
    }

    method SetHash(value: string)
      modifies uri`fragment
      ensures Hash() == value
      ensures uri.Value() == old(uri.Value()).(fragment := value)
    {
      uri.fragment := value;
    }

    function Query(): string
      reads this, uri
    {
      uri.query
    }

    method SetQuery(value: string)
      modifies uri`query
      ensures Query() == value
      ensures uri.Value() == old(uri.Value()).(query := value)
    {
      uri.query := value;
    }

    /** `str(url)` is `str()` of the wrapped `Uri`. */
    function ToString(): string
      reads this, uri
    {
      uri.ToString()
    }

    /**
     * `get_query_parameters`: splits the query on '&' and keeps each piece
     * that splits on '=' into exactly two items, later pieces overwriting
     * earlier ones.
     */
    method GetQueryParameters() returns (result: map<string, string>)
      ensures result == QueryParameters(Query())
    {
      var query := Query();
      result := map[];
      if query == "" {
        return;
      }
      var pairs := Split(query, '&');
      for k := 0 to |pairs|
        invariant result == CollectPairs(pairs[..k])
      {
        var items := Split(pairs[k], '=');
        if |items| == 2 {
          result := result[items[0] := items[1]];
        }
        assert pairs[..k + 1][..k] == pairs[..k];
      }
      assert pairs[..|pairs|] == pairs;
    }
  }

  /**
   * `Url(source)`: the wrapped `Uri`, then `_parse`; fails as `__init__`
   * raises when the port is not an integer.
   */
  method NewUrl(source: string) returns (r: Result<Url, PortError>)
    ensures var hp := SplitHostPort(Parse(source).authority);
      && (r.Success? <==> hp.Success?)
      && (r.Success? ==>
            r.value.uri.Value() == Parse(source) && r.value.hostname == hp.value.hostname && r.value.port == hp.value.port)
      && (r.Failure? ==> r.error == hp.error)
    ensures r.Success? ==> r.value.ToString() == Format(Parse(source))
    ensures r.Success? ==> (r.value.ToString() == source <==> ':' in source && Scan(source).1 == FormatDelims(Parse(source)))
  {
    FormatParse(source);
    var url := new Url(source);
    var error := url.ParseAuthority();
    if error.Some? {
      return Failure(error.value);
    }
    return Success(url);
  }
}

=== FILE: wrappers.dfy ===
/** Option and Result values, used where the modelled code returns None or raises. */
module Wrappers {

  datatype Option<+T> = None | Some(value: T)

  datatype Result<+T, +E> = Success(value: T) | Failure(error: E)
}
